=== FILE: README.md ===
# Hangman server core, modelled in Dafny

The repository is a multiplayer hangman game ("jogo da forca") served over
TCP. Its sequential core has three parts, and each is modelled and proved
here.

- **The turn ring.** `LinkedList` in lista_circular.py is a circular singly
  linked list with a movable cursor. Players take turns in this ring.
  `CircularList.LinkedList` keeps the ring as the sequence of node data in
  link order from the head. `Succ(size, i)` is the node after node `i`, and
  the tail links back to the head. The cursor is the index of its node.
  Insertion and removal take 1-based positions and fail with the source's
  `ListException` cases, given as `ListError` values.
- **The hangman session.** `Jogo` in jogo.py cleans input, reveals letters
  in the masked word, checks a guess of the whole word, fills the turn ring,
  and runs the turn loop of `_iniciar_jogo`.
  - One pass of that loop is the pure function `Hangman.Step`. `Hangman.Play`
    runs it over the players' replies, which are given as a sequence.
  - The imperative loop `Hangman.Jogo.IniciarJogo` writes into the masked
    array in place, appends wrong letters and moves the cursor of the ring.
    It is proved to end exactly as `Hangman.RunSession` says.
  - A session either finishes with a winner or with nobody, or raises
    (`Aborted`), or is still waiting for a reply when the replies run out
    (`AwaitingInput`).
- **The room registry.** `Server` in server.py has three hash tables:
  rooms, nicknames, and players ready per room.
  - The three tables are maps here.
  - Each semaphore-guarded method is one atomic step. Each step is first a
    pure function on a `Registry` value, and a method of
    `GameServer.Server` applies it to the object's fields.
  - The `comandos` dispatch is a pure classifier, `ClassifyCommand`, plus
    the loop `Comandos`. The loop serves commands until the first
    `jogador_pronto`.

`Text` holds the string operations Python gives the source: `t in s` on
strings, `str.split` on one character, and `upper`/`lower` on ASCII.
`Wrappers` holds `Option` and `Result`.

The docstring of `chutar_palavra` (jogo.py:141-149) says that both words are
stripped of accents and lower-cased before they are compared. The code
lower-cases only the secret (jogo.py:151-152) and compares it with the guess
exactly as the client typed it. The client sends that guess unchanged
(cliente.py:141-142). The model follows the code. The contract of
`Hangman.ChutarPalavra` states that a hit guess contains no capital letter, so
a guess with any upper-case letter never wins. `Hangman.UpperCaseGuessMisses`
gives the plainest case: typing the secret as the session stores it misses.

## Model

| member | source | states |
|---|---|---|
| `Text.ContainsIffOccurs` | jogo.py:264 | Python's substring test holds exactly when the pattern occurs at some index of the text. |
| `Text.Split` | server.py:97-98 | `split(',')` always gives at least one field. No field contains the separator. Joining the fields with it gives back the input. ASCII input gives ASCII fields. |
| `Text.SplitJoinWith` | server.py:98 | Splitting undoes joining comma-free fields with the separator. |
| `Text.Upper` | jogo.py:194 | On ASCII text, `upper()` keeps the length and keeps the text ASCII. No lower-case letter is left, and the result differs from the input only in case: both lower-case to the same text. |
| `Text.Lower` | jogo.py:152 | On ASCII text, `lower()` keeps the length and leaves no capital letter. Each character differs from the input only in case. |
| `CircularList.Succ` | lista_circular.py:109-125 | Each node's link is the node `(i + 1) mod size`. |
| `CircularList.RingCloses` | lista_circular.py:109-125 | The tail links back to the head. Every other node links to the next, and a lone node links to itself. |
| `CircularList.WalkIsOffset` | lista_circular.py:161-167 | Following `k` links from node `i` reaches node `(i + k) mod size`. |
| `CircularList.WalkOneMore` | lista_circular.py:163-167 | Extending a walk by one link is one more `Succ`. |
| `CircularList.FullCircle` | lista_circular.py:149-150 | `size` links lead back to the starting node, and no shorter positive number of links does. |
| `CircularList.RotateOnAdvance` | lista_circular.py:149-150 | Moving the cursor one link rotates the ring as seen from the cursor by one place. |
| `CircularList.DropTrailingSeparator` | lista_circular.py:322-327 | Terminating every element with ", " is the ", "-joined text followed by one ", ". |
| `CircularList.LinkedList.constructor` | lista_circular.py:59-66 | A new ring is empty and valid. |
| `CircularList.LinkedList.IsEmpty` | lista_circular.py:68-74 | True exactly when the ring has no element. |
| `CircularList.LinkedList.Length` | lista_circular.py:76-82 | The number of elements, which is also `tamanho` (lista_circular.py:171-172). |
| `CircularList.LinkedList.Insert` | lista_circular.py:84-142 | Succeeds iff `1 <= position <= size + 1`, and a failure changes nothing. On success the value is at `position` and the others keep their order. Position 1, including the first insert into an empty ring, puts the cursor on the new head. Any other position leaves the cursor on its node. |
| `CircularList.LinkedList.Advance` | lista_circular.py:144-150 | The cursor moves to its successor, and the data there is returned. |
| `CircularList.LinkedList.Remove` | lista_circular.py:174-240 | An empty ring or a position outside `[1, size]` raises and changes nothing. Otherwise the element at `position` is returned and removed, and the rest keep their order. Removing the head resets the cursor to the new head. A cursor whose data equals the removed data moves one link on in the new ring, and a cursor on the removed node moves to the node that followed it. |
| `CircularList.LinkedList.Index` | lista_circular.py:242-268 | Returns the 1-based position of the first occurrence. It raises on an empty ring or when the element is absent. |
| `CircularList.LinkedList.Element` | lista_circular.py:270-295 | For `0 <= index <= size`, returns the element `index mod size` links from the head. It raises on an empty ring or any other index. |
| `CircularList.LinkedList.GoTo` | lista_circular.py:152-168 | Returns the element `(max(start - 1, 0) + max(quantity, 0)) mod size` links from the head. |
| `CircularList.LinkedList.VerifyElement` | lista_circular.py:297-315 | Raises `AlreadyPresent` exactly when the element is in the ring. |
| `CircularList.LinkedList.ToString` | lista_circular.py:317-327 | The text is `"[ ]"` for an empty ring, otherwise `"[ a, b, ... ]"` in head order. |
| `Hangman.RemoveDigits` | jogo.py:81 | No digit is left. What it does to each character is given by `RemoveDigitsAppend` and `RemoveDigitsChar`. |
| `Hangman.RemoveDigitsAppend` | jogo.py:81 | Removing digits from a concatenation removes them from each part. |
| `Hangman.RemoveDigitsChar` | jogo.py:81 | A single digit is dropped, and any other single character is kept. |
| `Hangman.MaskNonLetters` | jogo.py:82 | Keeps the length and every letter, and turns every non-letter into `-`. |
| `Hangman.Clean` | jogo.py:73-83 | On ASCII input, every character left is a letter or `-`. What it does to each character is given by `CleanAppend` and `CleanChar`. |
| `Hangman.CleanAppend` | jogo.py:73-83 | Cleaning a concatenation of ASCII strings cleans each part. |
| `Hangman.CleanChar` | jogo.py:73-83 | A single digit vanishes, a letter is kept, and any other ASCII character becomes `-`. |
| `Hangman.CleanFixesCleanText` | jogo.py:81-83 | Text made only of letters and `-` comes out of cleaning unchanged. |
| `Hangman.CleanIdempotent` | jogo.py:73-83 | Cleaning twice is the same as cleaning once. |
| `Hangman.SecretWord` | jogo.py:98 | The session's word, `limpar_entrada(w).upper()`, is ASCII letters and `-`. It holds no lower-case letter, it never contains the blank `_`, and it differs from the cleaned word only in case. |
| `Hangman.LetterInput` | jogo.py:282 | A cleaned letter entry never contains the blank `_`. |
| `Hangman.TypedLetterIsUpperCased` | jogo.py:282 | A single typed letter of either case is taken as that letter in upper case. |
| `Hangman.DisplayRoundTrip` | jogo.py:138 | The space-joined masked word splits back into its characters. |
| `Hangman.Reveal` | jogo.py:135-137 | Every cell where the word holds the letter shows the letter. Any cell that changes is such a cell. |
| `Hangman.ChutarPalavra` | jogo.py:141-153 | A hit iff the guess has the word's length and holds the lower-case form of each letter of the secret. A hit guess contains no capital letter. |
| `Hangman.LowerCaseGuessHits` | jogo.py:151-153 | Guessing the secret in lower case wins. |
| `Hangman.UpperCaseGuessMisses` | jogo.py:151-153 | Typing the secret in the upper case the session stores misses whenever it contains a letter. |
| `Hangman.ParseMove` | jogo.py:264-280 | A letter entry taken from an ASCII reply is ASCII. |
| `Hangman.ParseWordGuess` | jogo.py:264-266 | The reply `chutar_palavra,<g>` with a comma-free `g` is a whole-word guess of `g`. |
| `Hangman.ParseLetterGuess` | jogo.py:278-280 | The reply `digitar_letra,<c>` is a letter entry of `c` and not a word guess. |
| `Hangman.ParseMoveShape` | jogo.py:264-280 | A reply raises exactly when it names a verb and has no comma, because `split(',')[1]` fails. A reply is no move exactly when it names neither verb. |
| `Hangman.Start` | jogo.py:194-198 | The session starts all blanks, with the word's length, no wrong letters, zero attempts, zero rounds, and the first player on turn. |
| `Hangman.StartConsistent` | jogo.py:194-199 | The starting state is consistent and has one blank per letter of the word. |
| `Hangman.Step` | jogo.py:259-304 | One pass keeps the masked word's length and leaves the turn on a player of the ring. A reply naming neither verb leaves the whole state unchanged, so the same player is asked again. What each kind of letter entry and word guess does is given by `BadOrRepeatedLetterIsFree`, `CorrectLetter`, `WrongLetter` and `WordGuessRule`. |
| `Hangman.Outcome` | jogo.py:306-320 | Nobody wins iff blanks remain and the attempts are used up. Otherwise the player on turn wins. |
| `Hangman.Final` | jogo.py:259-262 | The state the loop stops in keeps the masked word's length and leaves the turn on a player of the ring. |
| `Hangman.Play` | jogo.py:259-320 | The run finishes exactly when the loop condition fails in the state the loop stops in. The result is then `Outcome` of that state. |
| `Hangman.RunSession` | jogo.py:172-320 | With no players it raises. A finished session's winner, when there is one, is one of the players. |
| `Hangman.StepConsistent` | jogo.py:259-304 | Every pass keeps the state consistent. Revealed cells hold the word's letters, logged letters are not in the word, attempts never exceed 6, and the gallows table index stays below 7. |
| `Hangman.SolvedIsRevealed` | jogo.py:296-306 | With no blank left, the masked word equals the secret. |
| `Hangman.BadOrRepeatedLetterIsFree` | jogo.py:282-289 | An entry that does not clean to one character, or repeats a wrong or revealed letter, changes nothing. |
| `Hangman.CorrectLetter` | jogo.py:291-297 | A new correct letter reveals exactly its occurrences and costs no attempt. It adds a round, lowers the number of blanks, and leaves the wrong-letter log and the guess flag as they were. It passes the turn only if blanks remain. |
| `Hangman.RevealCount` | jogo.py:135-137 | Revealing a letter over a blank of its own lowers the blank count. |
| `Hangman.WrongLetter` | jogo.py:299-304 | A new wrong letter is logged and costs an attempt and a round. The word and the guess flag are unchanged, and the turn passes. |
| `Hangman.WordGuessRule` | jogo.py:264-276 | A correct word guess only sets the guess flag, which stops the loop with the guesser as winner. A wrong one costs an attempt and a round and passes the turn. It leaves the word and the wrong-letter log as they were, and the loop goes on. |
| `Hangman.FinishedOutcome` | jogo.py:259-320 | A run finishes exactly when the loop condition fails in its final state, and that state is consistent. The result names nobody exactly when all 6 attempts are used and blanks remain. Otherwise it names the player on turn, who has revealed the last blank or guessed the word. |
| `Hangman.Jogo.constructor` | jogo.py:35-43 | A new session has an empty, valid turn ring. |
| `Hangman.Jogo.Letras` | jogo.py:123-139 | The letter is written at exactly the indices where the word holds it, and every other cell is unchanged. The result is the array joined with single spaces. |
| `Hangman.Jogo.AdicionarJogadores` | jogo.py:155-163 | The ring holds the players in list order, with the cursor on the first of them. |
| `Hangman.Jogo.Turn` | jogo.py:259-304 | One pass of the loop moves the masked array, wrong letters, counters and cursor as `Step` says. It breaks only when the loop is over. |
| `Hangman.Jogo.IniciarJogo` | jogo.py:172-320 | The loop ends exactly as `RunSession` says for these players, this secret and these replies. |
| `GameServer.CreateRoomRule` | server.py:264-277 | `'402'` with no change iff the name is taken. Otherwise `'200'`, a new room holding just the creator, other rooms untouched, and the capacity bound kept. |
| `GameServer.JoinRoomRule` | server.py:279-300 | `'401'` with no change iff the room is absent, and `'404'` with no change iff it is full. Otherwise `'200'` with the handle appended. A join never takes a room above 3. |
| `GameServer.MarkReadyRule` | server.py:146-169 | The handle is appended to the room's ready list, which the first mark creates, and other rooms are untouched. The whole list is answered exactly when it then holds 3 handles. |
| `GameServer.ThirdMarkStartsGame` | server.py:153-181 | From a room nobody is ready in, the third mark answers the full list of the first three handles in order, and no other mark does. |
| `GameServer.CloseRoomRule` | server.py:197-212 | After a game the room is gone from both tables. Every other room and every nickname is unchanged. |
| `GameServer.ListingIsUnavailableIffNoRooms` | server.py:256-262 | A room listing is `'404'` iff there are no rooms. |
| `GameServer.RoomLinesStart` | server.py:259-261 | A non-empty listing starts with a room line. |
| `GameServer.ClassifyCommand` | server.py:97-132 | Only comma-bearing lines carry an argument verb, and the bare listing request carries no comma. |
| `GameServer.RequestFields` | server.py:98 | A `<verb>,<argument>` line splits into exactly the verb and the argument. |
| `GameServer.ClassifyRequest` | server.py:97-125 | A request is dispatched on its verb, with its argument. |
| `GameServer.ClassifyRequests` | server.py:99-121 | Every client request shape is classified as the command it stands for. |
| `GameServer.ClassifyListRequest` | server.py:128-129 | `salas_disponiveis` is the listing command. |
| `GameServer.ServeOneMore` | server.py:95-132 | Serving one more command extends the registry fold and the record of answers by that command. |
| `GameServer.AnswersEach` | server.py:95-132 | Index by index, each reply the loop sent answers its command in the registry the earlier commands left. No command before the stop is a `jogador_pronto`. |
| `GameServer.ServeWithinCapacity` | server.py:95-132 | No run of commands takes a room above 3 members. |
| `GameServer.Server.constructor` | server.py:39-51 | The server starts with three empty tables. |
| `GameServer.CreateRoom` | server.py:264-277 | Answers `'200'` or `'402'` and touches only the room table. Its full rule is `CreateRoomRule`. |
| `GameServer.JoinRoom` | server.py:279-300 | Answers `'200'`, `'401'` or `'404'`, creates no room and touches only the room table. Its full rule is `JoinRoomRule`. |
| `GameServer.SetNickname` | server.py:135-144 | The handle's nickname is the new one, every other nickname is kept, and the other tables are unchanged. |
| `GameServer.MarkReady` | server.py:146-169 | The room's ready list exists and ends with the handle. A full-list reply holds exactly 3 handles. Its full rule is `MarkReadyRule`. |
| `GameServer.CloseRoom` | server.py:197-212 | The room is in neither table afterwards, and the nicknames are unchanged. Its full rule is `CloseRoomRule`. |
| `GameServer.Apply` | server.py:99-132 | The commands served in the loop never touch the ready table. |
| `GameServer.Serve` | server.py:88-132 | Any run of commands served in the loop leaves the ready table as it was. |
| `GameServer.Server.CriarSala` | server.py:264-277 | Performs `CreateRoom` on the fields, keeping the capacity invariant. |
| `GameServer.Server.EntrarNaSala` | server.py:279-300 | Performs `JoinRoom` on the fields, keeping the capacity invariant. |
| `GameServer.Server.Nickname` | server.py:135-144 | Records the nickname for the handle. |
| `GameServer.Server.IniciarJogoTodosProntos` | server.py:171-181 | True exactly when the room's ready list holds 3 handles. |
| `GameServer.Server.JogadorPronto` | server.py:146-169 | Performs `MarkReady` on the ready table and leaves rooms and nicknames alone. |
| `GameServer.Server.MostrarSalasDisponiveis` | server.py:246-262 | Returns `'404'` iff there are no rooms. Otherwise returns one `-  <name>` line per room, each room exactly once, in the order the table was walked. |
| `GameServer.Server.Jogo` | server.py:184-212 | Runs the session. Once it has finished, with a winner or not, the room leaves both tables and nothing else changes. The winner's nickname is the one announced. |
| `GameServer.Server.Dispatch` | server.py:99-132 | One pass of the command loop for any command but `jogador_pronto`. |
| `GameServer.Server.Comandos` | server.py:88-132 | The loop serves commands in order and stops only at a `jogador_pronto` or when the input runs out. The registry ends as the fold of the served commands, and the replies answer them. |

## Left out

- Sockets, `send`/`recv`, `accept`, broadcasts, `print`, argv handling and `sys.exit` are not modelled. The players' replies to the game prompts and a client's command lines are given as sequences of strings, and nothing sent to clients is modelled apart from the status codes and the room listing.
- Threads, semaphores and `time.sleep` are not modelled. Each semaphore-guarded method is one atomic step.
- The theme exchange in `__palavra_usuario`, the theme listing, `random.choice` and the word dictionary are not modelled. The secret word, before cleaning, is a parameter.
- `unidecode` is not modelled. `limpar_entrada`, the secret and the replies are modelled only on ASCII text, so `Clean`, `SecretWord` and `IniciarJogo` require ASCII input.
- The gallows drawings are not modelled. Only the fact that the table of 7 entries is indexed within range is proved.
- `fila.py` and `hashtable.py` are not part of this model. The wrong-letter queue is a `seq` with append and membership, and each hash table is a `map`.
- The order in which the hash table yields its keys is unknown. `MostrarSalasDisponiveis` therefore returns the order it used, and its contract holds for any order.
- A nickname lookup for a handle without one returns whatever `hashtable.py` returns. The model gives `None`.
- Node objects, their `next` links and aliasing between nodes are not modelled. The ring is the sequence of node data, and a node's link is `Succ` on indices.
- Remove: removing the only element leaves the source with a stale head and cursor on the removed node. The model leaves an empty ring with the cursor reset. The stale node matters only to `advance` and `goTo` (see below), because every other operation tests for emptiness or walks only `size` links, and `insert` into an empty ring replaces head, tail and cursor.
- Advance: requires a non-empty ring. On a ring that was never filled, `advance` fails by dereferencing `None`. On a ring emptied by removing its only element, `head` and the cursor still hold the removed node, which links to itself (lista_circular.py:197-206). `advance` then returns the removed element. The model has no stale node, so it covers neither case.
- GoTo: requires a non-empty ring, for the same reason as `Advance`. On a ring emptied by removing its only element, `goTo` returns the removed element.
- The `TypeError` branches for positions that are not integers are not modelled, because positions are integers here.
- Inside `insert`, the "empty list needs position 1" exception cannot be reached once the range test passes. It has no branch of its own.
- `str()` of a ring element is the parameter `show` of `ToString`.
- `chutar_palavra` returns `None` rather than `False` on a miss. The model returns `false`.
- The `jogador_pronto` branch of `comandos` (server.py:107-118) is not modelled. It scans every room holding the client, marks the client ready in each, and starts a game (`jogo`) when a room fills, while that game removes rooms from the table being scanned. `Comandos` stops at that command. The per-room steps `JogadorPronto` and `Jogo` are modelled on their own.
- A session that raises (`Aborted`) or blocks waiting for a reply (`AwaitingInput`) never reaches the cleanup in `jogo`. `Server.Jogo` leaves the registry unchanged in those cases.
- cliente.py, the interactive client, is not part of this model. Its request formats appear only in `ClassifyRequests`, `ClassifyListRequest`, `ParseWordGuess` and `ParseLetterGuess`.

=== FILE: circular_list.dfy ===
/**
 * The turn ring (`LinkedList` in lista_circular.py): a singly linked ring of
 * nodes with a head, a tail, a size and a movable cursor. Positions taken by
 * `Insert` and `Remove` are 1-based; the offsets taken by `Element` and
 * `GoTo` count links followed from the head.
 *
 * The ring is kept as the sequence of node data in link order, from the head
 * (index 0) to the tail (index size - 1); the link of node i is `Succ(size, i)`,
 * so the tail links back to the head. The cursor is the index of its node.
 */
module CircularList {
  import opened Wrappers

  /** The conditions under which the ring raises its `ListException`. */
  datatype ListError = EmptyList | InvalidPosition | NotFound | AlreadyPresent

  // ---------------------------------------------------------------------------
  // The links of a ring of n nodes

  /** The node that node `i` links to: the next one, and the head after the tail. */
  function Succ(n: nat, i: nat): (j: nat)
    requires i < n
    ensures j < n && j == (i + 1) % n
  {
    if i + 1 == n then
      ModUnique(i + 1, n, 1, 0);
      0
    else
      ModUnique(i + 1, n, 0, i + 1);
      i + 1
  }

  /** The node reached from node `i` by following `k` links. */
  function Walk(n: nat, i: nat, k: nat): (j: nat)
    requires i < n
    ensures j < n
    decreases k
  {
    if k == 0 then i else Walk(n, Succ(n, i), k - 1)
  }

  /** Each node links to the one after it and the tail links back to the head; a lone node links to itself. */
  lemma RingCloses(n: nat)
    requires n > 0
    ensures Succ(n, n - 1) == 0
    ensures forall i :: 0 <= i < n - 1 ==> Succ(n, i) == i + 1
  {
  }

  lemma {:induction false} MulAtLeast(d: int, n: int)
    requires d >= 1 && n > 0
    ensures d * n >= n
    decreases d
  {
    if d > 1 {
      MulAtLeast(d - 1, n);
      assert d * n == (d - 1) * n + n;
    }
  }

  /** The remainder is the only r in [0, n) with x == q * n + r. */
  lemma ModUnique(x: int, n: int, q: int, r: int)
    requires n > 0 && 0 <= r < n && x == q * n + r
    ensures x % n == r
  {
    var q0, r0 := x / n, x % n;
    assert x == q0 * n + r0;
    if q0 < q {
      MulAtLeast(q - q0, n);
    } else if q0 > q {
      MulAtLeast(q0 - q, n);
    }
  }

  lemma AddModulus(x: int, n: int)
    requires n > 0
    ensures (x + n) % n == x % n
  {
    ModUnique(x + n, n, x / n + 1, x % n);
    assert (x / n + 1) * n == (x / n) * n + n;
  }

  /** Following `k` links from node `i` lands on node `(i + k) mod n`. */
  lemma {:induction false} WalkIsOffset(n: nat, i: nat, k: nat)
    requires i < n
    ensures Walk(n, i, k) == (i + k) % n
    decreases k
  {
    if k > 0 {
      WalkIsOffset(n, Succ(n, i), k - 1);
      if i + 1 == n {
        AddModulus(k - 1, n);
      }
    }
  }

  /** One more link at the end of a walk is one more `Succ`. */
  lemma {:induction false} WalkOneMore(n: nat, i: nat, k: nat)
    requires i < n
    ensures Walk(n, i, k + 1) == Succ(n, Walk(n, i, k))
    decreases k
  {
    if k > 0 {
      WalkOneMore(n, Succ(n, i), k - 1);
    }
  }

  /** Following as many links as there are nodes comes back to the start. */
  lemma FullCircle(n: nat, i: nat)
    requires i < n
    ensures Walk(n, i, n) == i
    ensures forall k :: 0 < k < n ==> Walk(n, i, k) != i
  {
    WalkIsOffset(n, i, n);
    AddModulus(i, n);
    ModUnique(i, n, 0, i);
    forall k | 0 < k < n
      ensures Walk(n, i, k) != i
    {
      WalkIsOffset(n, i, k);
      if i + k < n {
        ModUnique(i + k, n, 0, i + k);
      } else {
        ModUnique(i + k, n, 1, i + k - n);
      }
    }
  }

  /** The ring as seen from node `c`: that node first, then the others in link order. */
  function FromCursor<T>(s: seq<T>, c: nat): seq<T>
    requires c < |s|
  {
    s[c..] + s[..c]
  }

  /** Moving the cursor one link rotates the view from the cursor by one place. */
  lemma RotateOnAdvance<T>(s: seq<T>, c: nat)
    requires c < |s|
    ensures FromCursor(s, Succ(|s|, c)) == FromCursor(s, c)[1..] + [FromCursor(s, c)[0]]
  {
    assert s[..c + 1] == s[..c] + [s[c]];
    if c + 1 == |s| {
      assert s[..c] + [s[c]] == s;
    }
  }

  // ---------------------------------------------------------------------------
  // Rendering (`__str__`)

  /** The shown elements separated by ", ". */
  function JoinShown<T>(s: seq<T>, show: T -> string): string
    requires s != []
  {
    if |s| == 1 then show(s[0]) else JoinShown(s[..|s| - 1], show) + ", " + show(s[|s| - 1])
  }

  /** Every shown element followed by ", ", as the rendering loop builds it. */
  function EachTerminated<T>(s: seq<T>, show: T -> string): string {
    if s == [] then "" else EachTerminated(s[..|s| - 1], show) + show(s[|s| - 1]) + ", "
  }

  /** "[ ]" for the empty ring, otherwise "[ a, b, ... ]" in head order. */
  function Render<T>(s: seq<T>, show: T -> string): string {
    if s == [] then "[ ]" else "[ " + JoinShown(s, show) + " ]"
  }

  /** Cutting the last ", " off the loop's text leaves the separated list. */
  lemma {:induction false} DropTrailingSeparator<T>(s: seq<T>, show: T -> string)
    requires s != []
    ensures EachTerminated(s, show) == JoinShown(s, show) + ", "
    decreases |s|
  {
    if |s| > 1 {
      DropTrailingSeparator(s[..|s| - 1], show);
    } else {
      assert s[..0] == [];
    }
  }

  // ---------------------------------------------------------------------------
  // The ring object

  class LinkedList<T(==)> {
    /** Node data in link order, head first. */
    var items: seq<T>
    var size: nat
    /** Index of the cursor's node; 0 while the ring is empty. */
    var pointer: nat

    ghost predicate Valid()
      reads this
    {
      size == |items| && (if size == 0 then pointer == 0 else pointer < size)
    }

    constructor ()
      ensures Valid() && items == [] && size == 0
    {
      items, size, pointer := [], 0, 0;
    }

    /** `isEmpty` */
    function IsEmpty(): (b: bool)
      reads this
      requires Valid()
      ensures b <==> items == []
    {
      size == 0
    }

    /** `__len__` and `tamanho` */
    function Length(): (n: nat)
      reads this
      requires Valid()
      ensures n == |items|
    {
      size
    }

    /**
     * `insert(value, position)`: positions outside [1, size + 1] raise and
     * leave the ring as it was. Otherwise `value` becomes the element at
     * `position`; inserting at the front moves the cursor to the new head,
     * anywhere else the cursor stays on the node it was on.
     */
    method Insert(value: T, position: int) returns (r: Result<(), ListError>)
      requires Valid()
      modifies this
      ensures Valid()
      ensures r.Success? <==> 1 <= position <= old(size) + 1
      ensures r.Failure? ==> r.error == InvalidPosition && items == old(items) && pointer == old(pointer)
      ensures r.Success? ==> items == old(items)[..position - 1] + [value] + old(items)[position - 1..]
      ensures r.Success? && position == 1 ==> pointer == 0
      ensures r.Success? && position > 1 ==>
        pointer == (if old(pointer) < position - 1 then old(pointer) else old(pointer) + 1) &&
        items[pointer] == old(items)[old(pointer)]
    {
      if !(1 <= position <= size + 1) {
        return Failure(InvalidPosition);
      }
      // On an empty ring the range test has already forced position == 1.
      if size == 0 {
        items, size, pointer := [value], 1, 0;
      } else if position == 1 {
        items, size, pointer := [value] + items, size + 1, 0;
      } else if position == size + 1 {
        items, size := items + [value], size + 1;
      } else {
        // walk to the node after which the new one is linked
        var prev, count := 0, 1;
        while count < position - 1
          invariant 1 <= count <= position - 1
          invariant prev == count - 1
        {
          prev, count := Succ(size, prev), count + 1;
        }
        items := items[..prev + 1] + [value] + items[prev + 1..];
        size := size + 1;
        if pointer > prev {
          pointer := pointer + 1;
        }
      }
      r := Success(());
    }

    /** `advance`: move the cursor along its link and return the data there. */
    method Advance() returns (d: T)
      requires Valid() && size > 0
      modifies this`pointer
      ensures Valid()
      ensures pointer == Succ(size, old(pointer)) && d == items[pointer]
    {
      pointer := Succ(size, pointer);
      d := items[pointer];
    }

    /**
     * `remove(position)`: raises on an empty ring or a position outside
     * [1, size], leaving the ring as it was. Otherwise the element at
     * `position` is unlinked and returned. Removing the head resets the
     * cursor to the new head, and then, as everywhere else, a cursor whose
     * data equals the removed data moves one link on in the new ring (a cursor
     * on the removed node itself moves to the node that followed it).
     */
    method Remove(position: int) returns (r: Result<T, ListError>)
      requires Valid()
      modifies this
      ensures Valid()
      ensures old(size) == 0 ==> r == Failure(EmptyList)
      ensures old(size) > 0 && !(1 <= position <= old(size)) ==> r == Failure(InvalidPosition)
      ensures r.Failure? ==> items == old(items) && pointer == old(pointer)
      ensures r.Success? ==>
        1 <= position <= old(size) && r.value == old(items)[position - 1] &&
        items == old(items)[..position - 1] + old(items)[position..]
      ensures r.Success? && position == 1 && size > 0 ==>
        pointer == (if items[0] == r.value then Succ(size, 0) else 0)
      ensures r.Success? && position > 1 && old(items)[old(pointer)] != r.value ==>
        pointer == (if old(pointer) < position - 1 then old(pointer) else old(pointer) - 1) &&
        items[pointer] == old(items)[old(pointer)]
      ensures r.Success? && position > 1 && old(pointer) == position - 1 ==>
        pointer == (position - 1) % size
      ensures r.Success? && position > 1 && old(pointer) != position - 1 && old(items)[old(pointer)] == r.value ==>
        pointer == Succ(size, if old(pointer) < position - 1 then old(pointer) else old(pointer) - 1)
    {
      if size == 0 {
        return Failure(EmptyList);
      }
      if !(1 <= position <= size) {
        return Failure(InvalidPosition);
      }
      var data := items[position - 1];
      if position == 1 {
        items, size, pointer := items[1..], size - 1, 0;
        if size > 0 && data == items[pointer] {
          pointer := Succ(size, pointer);
        }
      } else {
        // walk to the node before the one being unlinked
        var prev, count := 0, 1;
        while count < position - 1
          invariant 1 <= count <= position - 1
          invariant prev == count - 1
        {
          prev, count := Succ(size, prev), count + 1;
        }
        var k := prev + 1;
        var cursor := pointer;
        var cursorData := items[cursor];
        items, size := items[..k] + items[k + 1..], size - 1;
        // the cursor's node keeps its place in link order
        pointer := if cursor < k then cursor else if cursor == k then k % size else cursor - 1;
        if data == cursorData && cursor != k {
          pointer := Succ(size, pointer);
        }
      }
      r := Success(data);
    }

    /**
     * `index(elem)`: the 1-based position of the first node holding `elem`;
     * raises on an empty ring or when no node holds it.
     */
    method Index(elem: T) returns (r: Result<nat, ListError>)
      requires Valid()
      ensures size == 0 ==> r == Failure(EmptyList)
      ensures size > 0 && elem !in items ==> r == Failure(NotFound)
      ensures elem in items ==>
        r.Success? && 1 <= r.value <= size && items[r.value - 1] == elem && elem !in items[..r.value - 1]
    {
      if size == 0 {
        return Failure(EmptyList);
      }
      var ptr, count := 0, 1;
      while true
        invariant 1 <= count <= size && ptr == count - 1
        invariant elem !in items[..ptr]
        decreases size - count
      {
        if items[ptr] == elem {
          return Success(count);
        }
        assert items[..ptr + 1] == items[..ptr] + [items[ptr]];
        ptr, count := Succ(size, ptr), count + 1;
        if ptr == 0 {
          break;
        }
      }
      assert items[..size] == items;
      r := Failure(NotFound);
    }

    /**
     * `element(index)`: raises on an empty ring or an index outside
     * [0, size]; otherwise the data `index` links on from the head, which for
     * `index == size` is the head again.
     */
    method Element(index: int) returns (r: Result<T, ListError>)
      requires Valid()
      ensures size == 0 ==> r == Failure(EmptyList)
      ensures size > 0 && !(0 <= index <= size) ==> r == Failure(InvalidPosition)
      ensures size > 0 && 0 <= index <= size ==> r == Success(items[index % size])
    {
      if size == 0 {
        return Failure(EmptyList);
      }
      if !(0 <= index <= size) {
        return Failure(InvalidPosition);
      }
      var ptr, count := 0, 1;
      while count <= index
        invariant 1 <= count <= index + 1
        invariant ptr == Walk(size, 0, count - 1)
      {
        WalkOneMore(size, 0, count - 1);
        ptr, count := Succ(size, ptr), count + 1;
      }
      WalkIsOffset(size, 0, index);
      r := Success(items[ptr]);
    }

    /**
     * `goTo(start, quantity)`: from the head, follow `start - 1` links and
     * then `quantity` more (a count below one follows none) and return the
     * data reached.
     */
    method GoTo(start: int, quantity: int) returns (d: T)
      requires Valid() && size > 0
      ensures d == items[((if start > 1 then start - 1 else 0) + (if quantity > 0 then quantity else 0)) % size]
    {
      var ptr, count := 0, 1;
      while count < start
        invariant 1 <= count && (count == 1 || count <= start)
        invariant ptr == Walk(size, 0, count - 1)
      {
        WalkOneMore(size, 0, count - 1);
        ptr, count := Succ(size, ptr), count + 1;
      }
      ghost var skipped := count - 1;
      assert skipped == if start > 1 then start - 1 else 0;
      var i := 0;
      while i < quantity
        invariant 0 <= i && (i == 0 || i <= quantity)
        invariant ptr == Walk(size, 0, skipped + i)
      {
        WalkOneMore(size, 0, skipped + i);
        ptr, i := Succ(size, ptr), i + 1;
      }
      WalkIsOffset(size, 0, skipped + i);
      d := items[ptr];
    }

    /** `verifyElement(element)`: raises exactly when some node already holds `element`. */
    method VerifyElement(element: T) returns (r: Result<(), ListError>)
      requires Valid()
      ensures r.Failure? <==> element in items
      ensures r.Failure? ==> r.error == AlreadyPresent
    {
      var ptr := 0;
      for i := 0 to size
        invariant i < size ==> ptr == i
        invariant element !in items[..i]
      {
        if items[ptr] == element {
          return Failure(AlreadyPresent);
        }
        assert items[..i + 1] == items[..i] + [items[i]];
        ptr := Succ(size, ptr);
      }
      assert items[..size] == items;
      r := Success(());
    }

    /** `__str__`, with `show` standing for Python's `str` of an element. */
    method ToString(show: T -> string) returns (text: string)
      requires Valid()
      ensures text == Render(items, show)
    {
      text := "[ ";
      if size == 0 {
        return text + "]";
      }
      var ptr := 0;
      for i := 0 to size
        invariant i < size ==> ptr == i
        invariant text == "[ " + EachTerminated(items[..i], show)
      {
        assert items[..i + 1][..i] == items[..i];
        text := text + show(items[ptr]) + ", ";
        ptr := Succ(size, ptr);
      }
      assert items[..size] == items;
      DropTrailingSeparator(items, show);
      var body := JoinShown(items, show);
      assert text == "[ " + body + ", ";
      assert text[..|text| - 2] == "[ " + body;
      text := text[..|text| - 2] + " ]";
    }
  }
}

=== FILE: hangman.dfy ===
/**
 * The hangman session engine (`Jogo` in jogo.py): input cleaning, revealing
 * a letter in the masked word, checking a whole-word guess, filling the turn
 * ring, and the turn loop of `_iniciar_jogo`.
 *
 * The loop's socket exchanges become data: the replies the players give to
 * the "menu" prompt are a sequence of strings consumed one per iteration, and
 * the broadcasts are not modelled. One iteration of the loop is the function
 * `Step`; `Play` runs it over the replies, and `Jogo.IniciarJogo` is the loop
 * itself, proved to compute what `Play` says.
 */
module Hangman {
  import opened Wrappers
  import opened Text
  import opened CircularList

  /** A participant handle: the connected socket that identifies a player. */
  type Handle = nat

  const MaxAttempts: nat := 6
  /** Entries of the gallows drawing table; after `a` attempts entry `a` is broadcast. */
  const GallowsStages: nat := 7
  /** The mark of a letter not yet revealed in the masked word. */
  const Blank: char := '_'

  predicate AllAscii(lines: seq<string>) {
    forall i :: 0 <= i < |lines| ==> IsAscii(lines[i])
  }

  // ---------------------------------------------------------------------------
  // limpar_entrada, on ASCII text

  /** `re.sub(r'\d+', '', s)`: every digit removed. */
  function RemoveDigits(s: string): (r: string)
    ensures forall i :: 0 <= i < |r| ==> !IsDigit(r[i])
    decreases |s|
  {
    if s == [] then [] else (if IsDigit(s[0]) then [] else [s[0]]) + RemoveDigits(s[1..])
  }

  /** `re.sub(r'[^a-zA-Z]', '-', s)`: every non-letter becomes '-'. */
  function MaskNonLetters(s: string): (r: string)
    ensures |r| == |s| && IsCleanText(r)
    ensures forall i :: 0 <= i < |s| && IsLetter(s[i]) ==> r[i] == s[i]
    ensures forall i :: 0 <= i < |s| && !IsLetter(s[i]) ==> r[i] == '-'
  {
    seq(|s|, i requires 0 <= i < |s| => if IsLetter(s[i]) then s[i] else '-')
  }

  /** `limpar_entrada`: digits dropped, then every other non-letter replaced by '-'. */
  function Clean(s: string): (r: string)
    requires IsAscii(s)
    ensures forall i :: 0 <= i < |r| ==> IsLetter(r[i]) || r[i] == '-'
  {
    MaskNonLetters(RemoveDigits(s))
  }

  predicate IsCleanText(s: string) {
    forall i :: 0 <= i < |s| ==> IsLetter(s[i]) || s[i] == '-'
  }

  /** Text made of letters and '-' comes out of cleaning unchanged. */
  lemma {:induction false} CleanFixesCleanText(s: string)
    requires IsCleanText(s)
    ensures IsAscii(s) && Clean(s) == s
  {
    RemoveDigitsKeepsNonDigits(s);
  }

  lemma {:induction false} RemoveDigitsKeepsNonDigits(s: string)
    requires forall i :: 0 <= i < |s| ==> !IsDigit(s[i])
    ensures RemoveDigits(s) == s
    decreases |s|
  {
    if s != [] {
      RemoveDigitsKeepsNonDigits(s[1..]);
      assert [s[0]] + s[1..] == s;
    }
  }

  /** Digits are dropped piece by piece: removing digits from a concatenation removes them from each part. */
  lemma {:induction false} RemoveDigitsAppend(a: string, b: string)
    ensures RemoveDigits(a + b) == RemoveDigits(a) + RemoveDigits(b)
    decreases |a|
  {
    if a == [] {
      assert a + b == b;
    } else {
      assert (a + b)[1..] == a[1..] + b;
      RemoveDigitsAppend(a[1..], b);
    }
  }

  /** A single character: a digit is dropped, anything else is kept. */
  lemma RemoveDigitsChar(c: char)
    ensures RemoveDigits([c]) == if IsDigit(c) then [] else [c]
  {
    assert [c][1..] == [];
  }

  /**
   * `limpar_entrada` works character by character: on a concatenation it
   * cleans each part, a digit vanishes, a letter is kept and every other
   * character becomes '-'. Together these fix `Clean` on every ASCII string.
   */
  lemma CleanAppend(a: string, b: string)
    requires IsAscii(a) && IsAscii(b)
    ensures IsAscii(a + b) && Clean(a + b) == Clean(a) + Clean(b)
  {
    RemoveDigitsAppend(a, b);
    var x, y := RemoveDigits(a), RemoveDigits(b);
    assert MaskNonLetters(x + y) == MaskNonLetters(x) + MaskNonLetters(y);
  }

  lemma CleanChar(c: char)
    requires c < 128 as char
    ensures Clean([c]) == if IsDigit(c) then [] else if IsLetter(c) then [c] else "-"
  {
    RemoveDigitsChar(c);
  }

  /** Cleaning twice is cleaning once. */
  lemma CleanIdempotent(s: string)
    requires IsAscii(s)
    ensures IsAscii(Clean(s)) && Clean(Clean(s)) == Clean(s)
  {
    CleanFixesCleanText(Clean(s));
  }

  /** The secret word as the session keeps it: `list(limpar_entrada(w).upper())`. */
  function SecretWord(w: string): (word: seq<char>)
    requires IsAscii(w)
    ensures IsAscii(word) && IsCleanText(word)
    ensures Blank !in word
    ensures forall i :: 0 <= i < |word| ==> !('a' <= word[i] <= 'z')
    ensures Lower(word) == Lower(Clean(w))
  {
    Upper(Clean(w))
  }

  /** The letter a `digitar_letra` entry stands for: `limpar_entrada(entry.upper())`. */
  function LetterInput(entry: string): (letter: string)
    requires IsAscii(entry)
    ensures Blank !in letter
  {
    Clean(Upper(entry))
  }

  /** A single typed letter, in either case, is taken as that letter in upper case. */
  lemma TypedLetterIsUpperCased(c: char)
    requires IsLetter(c)
    ensures LetterInput([c]) == [UpperChar(c)]
  {
    var u := Upper([c]);
    assert u == [UpperChar(c)];
    assert RemoveDigits(u) == u + RemoveDigits([]) by {
      assert u[1..] == [];
    }
  }

  // ---------------------------------------------------------------------------
  // letras and chutar_palavra

  /** `arr` with `letter` written at every index where `word` holds it. */
  function Reveal(masked: seq<char>, word: seq<char>, letter: char): (r: seq<char>)
    requires |word| <= |masked|
    ensures |r| == |masked|
    ensures forall i :: 0 <= i < |word| && word[i] == letter ==> r[i] == letter
    ensures forall i :: 0 <= i < |r| && r[i] != masked[i] ==> i < |word| && word[i] == letter == r[i]
  {
    seq(|masked|, i requires 0 <= i < |masked| => if i < |word| && word[i] == letter then letter else masked[i])
  }

  function Singletons(cs: seq<char>): seq<string> {
    seq(|cs|, i requires 0 <= i < |cs| => [cs[i]])
  }

  /** `' '.join(cs)` for a list of one-character strings. */
  function JoinSpaces(cs: seq<char>): string {
    if cs == [] then "" else JoinWith(Singletons(cs), ' ')
  }

  /** The broadcast form of the masked word splits back into its characters. */
  lemma DisplayRoundTrip(cs: seq<char>)
    requires cs != [] && ' ' !in cs
    ensures Split(JoinSpaces(cs), ' ') == Singletons(cs)
  {
    SplitJoinWith(Singletons(cs), ' ');
  }

  /**
   * `chutar_palavra(palavra, chute)`: the secret, joined and lower-cased, equal
   * to the guess exactly as typed (the source answers True, otherwise None).
   */
  function ChutarPalavra(word: seq<char>, guess: string): (hit: bool)
    requires IsAscii(word)
    ensures hit <==> |guess| == |word| && forall i :: 0 <= i < |word| ==> guess[i] == LowerChar(word[i])
    ensures hit ==> forall i :: 0 <= i < |guess| ==> !('A' <= guess[i] <= 'Z')
  {
    Lower(word) == guess
  }

  /** Guessing the secret in lower case wins. */
  lemma LowerCaseGuessHits(word: seq<char>)
    requires IsAscii(word)
    ensures ChutarPalavra(word, Lower(word))
  {
  }

  /**
   * The guess is not normalised: typing the secret as the session holds it,
   * in upper case, misses as soon as the word has a letter.
   */
  lemma UpperCaseGuessMisses(w: string, k: nat)
    requires IsAscii(w)
    requires k < |SecretWord(w)| && IsLetter(SecretWord(w)[k])
    ensures !ChutarPalavra(SecretWord(w), SecretWord(w))
  {
    var word := SecretWord(w);
    var c := Clean(w)[k];
    assert word[k] == UpperChar(c);
    assert Lower(word)[k] == LowerChar(word[k]);
    assert Lower(word)[k] != word[k];
  }

  // ---------------------------------------------------------------------------
  // One iteration of the turn loop

  datatype Session = Session(
    masked: seq<char>,  // array_palavra_jogo
    wrong: seq<char>,   // fila_letras_erradas, oldest first
    attempts: nat,      // tentativas
    rounds: nat,        // rodadas
    turn: nat,          // the current player's place in the turn ring
    guessed: bool)      // the loop was left by a correct whole-word guess

  /** What a player's reply to the "menu" prompt asks for. */
  datatype Move = WordGuess(guess: string) | LetterGuess(entry: string) | NoMove

  datatype Winner = Player(handle: Handle) | Nobody

  /**
   * How a session run ends: with its result (`("Jogo_encerrado", winner)` in
   * the source), with an exception raised out of it, or still waiting for a
   * reply when the given replies run out.
   */
  datatype Ending = Finished(winner: Winner) | Aborted | AwaitingInput

  /**
   * The reply's kind by substring test, and its second comma-separated field;
   * None when that field is missing (the source's `split(',')[1]` raises).
   */
  function ParseMove(reply: string): (m: Option<Move>)
    ensures IsAscii(reply) && m.Some? && m.value.LetterGuess? ==> IsAscii(m.value.entry)
  {
    var fields := Split(reply, ',');
    if Contains(reply, "chutar_palavra") then
      if |fields| < 2 then None else Some(WordGuess(fields[1]))
    else if Contains(reply, "digitar_letra") then
      if |fields| < 2 then None else Some(LetterGuess(fields[1]))
    else
      Some(NoMove)
  }

  /**
   * Which replies raise and which are ignored: naming a verb without a comma
   * makes `split(',')[1]` raise, and naming neither verb is no move at all.
   */
  lemma ParseMoveShape(reply: string)
    ensures ParseMove(reply).None? <==>
      (Contains(reply, "chutar_palavra") || Contains(reply, "digitar_letra")) && ',' !in reply
    ensures ParseMove(reply) == Some(NoMove) <==>
      !Contains(reply, "chutar_palavra") && !Contains(reply, "digitar_letra")
  {
    if ',' in reply {
      SplitHasTwoFields(reply, ',');
    } else {
      SplitNoSeparator(reply, ',');
    }
  }

  /** The replies the client sends for a guessed word, as the client builds them. */
  lemma ParseWordGuess(g: string)
    requires ',' !in g
    ensures ParseMove("chutar_palavra," + g) == Some(WordGuess(g))
  {
    var reply := "chutar_palavra," + g;
    assert "chutar_palavra" <= reply;
    SplitJoinWith(["chutar_palavra", g], ',');
    assert JoinWith(["chutar_palavra", g], ',') == reply;
  }

  /** The reply the client sends for a typed character. */
  lemma ParseLetterGuess(c: char)
    requires c != ','
    ensures ParseMove("digitar_letra," + [c]) == Some(LetterGuess([c]))
  {
    var reply := "digitar_letra," + [c];
    ContainsIffOccurs(reply, "chutar_palavra");
    forall i: int
      ensures !OccursAt(reply, "chutar_palavra", i)
    {
      if 0 <= i <= |reply| - |"chutar_palavra"| {
        assert reply[i..i + |"chutar_palavra"|][0] == reply[i] != 'c';
      }
    }
    assert "digitar_letra" <= reply;
    SplitJoinWith(["digitar_letra", [c]], ',');
    assert JoinWith(["digitar_letra", [c]], ',') == reply;
  }

  /** The state the loop starts in: all blanks, nothing guessed, the first player's turn. */
  function Start(word: seq<char>): (st: Session)
    ensures |st.masked| == |word| && forall i :: 0 <= i < |word| ==> st.masked[i] == Blank
    ensures st.wrong == [] && st.attempts == 0 && st.rounds == 0 && st.turn == 0 && !st.guessed
  {
    Session(seq(|word|, _ => Blank), [], 0, 0, 0, false)
  }

  /** The loop condition: a blank left, attempts below the maximum, no winning guess. */
  predicate Running(st: Session) {
    Blank in st.masked && st.attempts < MaxAttempts && !st.guessed
  }

  /** Who the session result names once the loop has stopped. */
  function Outcome(players: seq<Handle>, st: Session): (w: Winner)
    requires st.turn < |players|
    ensures w.Nobody? <==> Blank in st.masked && st.attempts >= MaxAttempts
    ensures w.Player? ==> w.handle == players[st.turn]
  {
    if Blank !in st.masked then Player(players[st.turn])
    else if st.attempts >= MaxAttempts then Nobody
    else Player(players[st.turn])
  }

  /** One iteration of the loop for a session of `n` players. */
  function Step(word: seq<char>, n: nat, st: Session, m: Move): (next: Session)
    requires IsAscii(word) && st.turn < n
    requires |st.masked| == |word|
    requires m.LetterGuess? ==> IsAscii(m.entry)
    ensures |next.masked| == |word| && next.turn < n
    ensures m.NoMove? ==> next == st
  {
    match m
    case NoMove => st
    case WordGuess(g) =>
      if ChutarPalavra(word, g) then st.(guessed := true)
      else st.(attempts := st.attempts + 1, rounds := st.rounds + 1, turn := Succ(n, st.turn))
    case LetterGuess(entry) =>
      var letter := LetterInput(entry);
      if |letter| != 1 then st
      else if letter[0] in st.wrong || letter[0] in st.masked then st
      else if letter[0] in word then
        var masked := Reveal(st.masked, word, letter[0]);
        st.(masked := masked, rounds := st.rounds + 1,
            turn := if Blank in masked then Succ(n, st.turn) else st.turn)
      else
        st.(wrong := st.wrong + [letter[0]], attempts := st.attempts + 1,
            rounds := st.rounds + 1, turn := Succ(n, st.turn))
  }

  /** Run the loop over the players' replies, one reply per iteration. */
  function Play(word: seq<char>, players: seq<Handle>, st: Session, replies: seq<string>): (e: Ending)
    requires IsAscii(word) && st.turn < |players| && |st.masked| == |word|
    requires AllAscii(replies)
    ensures e.Finished? <==> !Running(Final(word, players, st, replies))
    ensures e.Finished? ==> e.winner == Outcome(players, Final(word, players, st, replies))
    decreases |replies|
  {
    if !Running(st) then Finished(Outcome(players, st))
    else if replies == [] then AwaitingInput
    else match ParseMove(replies[0])
      case None => Aborted
      case Some(m) => Play(word, players, Step(word, |players|, st, m), replies[1..])
  }

  /**
   * `_iniciar_jogo(players)` for the secret `secret` chosen for the theme:
   * with no players the lookup of the first one raises.
   */
  function RunSession(players: seq<Handle>, secret: string, replies: seq<string>): (e: Ending)
    requires IsAscii(secret) && AllAscii(replies)
    ensures players == [] ==> e == Aborted
    ensures e.Finished? && e.winner.Player? ==> e.winner.handle in players
  {
    if players == [] then Aborted
    else
      var word := SecretWord(secret);
      StartConsistent(word, |players|);
      FinishedOutcome(word, players, Start(word), replies);
      Play(word, players, Start(word), replies)
  }

  // ---------------------------------------------------------------------------
  // Properties of the loop

  function BlankCount(s: seq<char>): nat
    decreases |s|
  {
    if s == [] then 0 else (if s[0] == Blank then 1 else 0) + BlankCount(s[1..])
  }

  /** What holds of every state the loop reaches. */
  ghost predicate Consistent(word: seq<char>, n: nat, st: Session) {
    |st.masked| == |word| && st.turn < n &&
    (forall i :: 0 <= i < |word| ==> st.masked[i] == Blank || st.masked[i] == word[i]) &&
    (forall i :: 0 <= i < |st.wrong| ==> st.wrong[i] !in word) &&
    st.attempts <= MaxAttempts && |st.wrong| <= st.attempts <= st.rounds
  }

  lemma StartConsistent(word: seq<char>, n: nat)
    requires n > 0
    ensures Consistent(word, n, Start(word)) && BlankCount(Start(word).masked) == |word|
  {
    AllBlanks(Start(word).masked);
  }

  lemma {:induction false} AllBlanks(s: seq<char>)
    requires forall i :: 0 <= i < |s| ==> s[i] == Blank
    ensures BlankCount(s) == |s|
    decreases |s|
  {
    if s != [] {
      AllBlanks(s[1..]);
    }
  }

  /**
   * Every iteration keeps the state consistent; in particular attempts never
   * exceed 6, so the gallows table of 7 entries is always indexed in range.
   */
  lemma StepConsistent(word: seq<char>, n: nat, st: Session, m: Move)
    requires IsAscii(word) && Blank !in word
    requires Consistent(word, n, st) && Running(st)
    requires m.LetterGuess? ==> IsAscii(m.entry)
    ensures Consistent(word, n, Step(word, n, st, m))
    ensures Step(word, n, st, m).attempts < GallowsStages
  {
  }

  /** Once no blank is left, the masked word is the secret. */
  lemma SolvedIsRevealed(word: seq<char>, n: nat, st: Session)
    requires Consistent(word, n, st) && Blank !in word && Blank !in st.masked
    ensures st.masked == word
  {
    forall i | 0 <= i < |word|
      ensures st.masked[i] == word[i]
    {
      assert st.masked[i] in st.masked;
    }
  }

  /**
   * A reply that does not clean to one character, or repeats a letter already
   * wrong or revealed, changes nothing: same attempts, rounds, turn and word.
   */
  lemma BadOrRepeatedLetterIsFree(word: seq<char>, n: nat, st: Session, entry: string)
    requires IsAscii(word) && st.turn < n && |st.masked| == |word| && IsAscii(entry)
    requires |LetterInput(entry)| != 1 || LetterInput(entry)[0] in st.wrong || LetterInput(entry)[0] in st.masked
    ensures Step(word, n, st, LetterGuess(entry)) == st
  {
  }

  /**
   * A new letter of the secret reveals all its occurrences, takes one round
   * and no attempt, removes at least one blank, and passes the turn only if
   * blanks remain.
   */
  lemma CorrectLetter(word: seq<char>, n: nat, st: Session, entry: string)
    requires IsAscii(word) && Blank !in word && Consistent(word, n, st) && IsAscii(entry)
    requires |LetterInput(entry)| == 1
    requires LetterInput(entry)[0] !in st.wrong && LetterInput(entry)[0] !in st.masked
    requires LetterInput(entry)[0] in word
    ensures var l := LetterInput(entry)[0];
            var next := Step(word, n, st, LetterGuess(entry));
            next.masked == Reveal(st.masked, word, l) &&
            (forall i :: 0 <= i < |word| ==> (next.masked[i] == l <==> word[i] == l)) &&
            next.attempts == st.attempts && next.rounds == st.rounds + 1 && next.wrong == st.wrong &&
            next.guessed == st.guessed &&
            next.turn == (if Blank in next.masked then Succ(n, st.turn) else st.turn) &&
            BlankCount(next.masked) < BlankCount(st.masked)
  {
    var l := LetterInput(entry)[0];
    var k :| 0 <= k < |word| && word[k] == l;
    assert st.masked[k] != l;
    assert st.masked[k] == Blank;
    forall i | 0 <= i < |word|
      ensures st.masked[i] != l
    {
      assert st.masked[i] in st.masked;
    }
    RevealCount(st.masked, word, l, k);
  }

  /** Revealing a letter over a blank it belongs under lowers the blank count. */
  lemma {:induction false} RevealCount(masked: seq<char>, word: seq<char>, l: char, k: nat)
    requires |masked| == |word| && l != Blank
    requires k < |word| && word[k] == l && masked[k] == Blank
    ensures BlankCount(Reveal(masked, word, l)) < BlankCount(masked)
    decreases |word|
  {
    RevealNeverAddsBlanks(masked, word, l);
    var r := Reveal(masked, word, l);
    assert Reveal(masked[1..], word[1..], l) == r[1..];
    if k > 0 {
      RevealCount(masked[1..], word[1..], l, k - 1);
    } else {
      RevealNeverAddsBlanks(masked[1..], word[1..], l);
    }
  }

  lemma {:induction false} RevealNeverAddsBlanks(masked: seq<char>, word: seq<char>, l: char)
    requires |masked| == |word| && l != Blank
    ensures BlankCount(Reveal(masked, word, l)) <= BlankCount(masked)
    decreases |word|
  {
    if word != [] {
      var r := Reveal(masked, word, l);
      assert Reveal(masked[1..], word[1..], l) == r[1..];
      RevealNeverAddsBlanks(masked[1..], word[1..], l);
    }
  }

  /** A wrong new letter is logged, costs an attempt and a round, and passes the turn. */
  lemma WrongLetter(word: seq<char>, n: nat, st: Session, entry: string)
    requires IsAscii(word) && st.turn < n && |st.masked| == |word| && IsAscii(entry)
    requires |LetterInput(entry)| == 1
    requires LetterInput(entry)[0] !in st.wrong && LetterInput(entry)[0] !in st.masked
    requires LetterInput(entry)[0] !in word
    ensures var next := Step(word, n, st, LetterGuess(entry));
            next.wrong == st.wrong + LetterInput(entry) && next.masked == st.masked &&
            next.attempts == st.attempts + 1 && next.rounds == st.rounds + 1 &&
            next.turn == Succ(n, st.turn) && next.guessed == st.guessed
  {
  }

  /**
   * A whole-word guess: right, it stops the loop with the guesser as winner
   * (when blanks remain and attempts are left, as inside the loop); wrong, it
   * costs an attempt and a round and passes the turn.
   */
  lemma WordGuessRule(word: seq<char>, players: seq<Handle>, st: Session, g: string)
    requires IsAscii(word) && st.turn < |players| && |st.masked| == |word| && Running(st)
    ensures var next := Step(word, |players|, st, WordGuess(g));
            if g == Lower(word) then
              next == st.(guessed := true) &&
              !Running(next) && Outcome(players, next) == Player(players[st.turn])
            else
              next.masked == st.masked && next.wrong == st.wrong && !next.guessed &&
              next.attempts == st.attempts + 1 &&
              next.rounds == st.rounds + 1 && next.turn == Succ(|players|, st.turn)
  {
  }

  /**
   * The state the loop is in when `Play` stops: when the loop condition fails,
   * when a reply raises, or when the replies run out.
   */
  function Final(word: seq<char>, players: seq<Handle>, st: Session, replies: seq<string>): (f: Session)
    requires IsAscii(word) && st.turn < |players| && |st.masked| == |word|
    requires AllAscii(replies)
    ensures |f.masked| == |word| && f.turn < |players|
    decreases |replies|
  {
    if !Running(st) || replies == [] then st
    else match ParseMove(replies[0])
      case None => st
      case Some(m) => Final(word, players, Step(word, |players|, st, m), replies[1..])
  }

  /**
   * The session result (jogo.py:306-320). A run finishes exactly when the loop
   * condition fails in its last state. It then names nobody exactly when the
   * 6 attempts are used up with blanks left; otherwise it names the player on
   * turn, who has revealed the last blank or guessed the word.
   */
  lemma {:induction false} FinishedOutcome(word: seq<char>, players: seq<Handle>, st: Session, replies: seq<string>)
    requires IsAscii(word) && Blank !in word && Consistent(word, |players|, st) && AllAscii(replies)
    ensures var e := Play(word, players, st, replies);
      var f := Final(word, players, st, replies);
      (e.Finished? <==> !Running(f)) &&
      (e.Finished? ==>
        Consistent(word, |players|, f) && e.winner == Outcome(players, f) &&
        (e.winner.Nobody? <==> f.attempts == MaxAttempts && Blank in f.masked) &&
        (e.winner.Player? ==> e.winner.handle == players[f.turn] && (Blank !in f.masked || f.guessed)))
    decreases |replies|
  {
    if Running(st) && replies != [] {
      var m := ParseMove(replies[0]);
      if m.Some? {
        StepConsistent(word, |players|, st, m.value);
        FinishedOutcome(word, players, Step(word, |players|, st, m.value), replies[1..]);
      }
    }
  }

  // ---------------------------------------------------------------------------
  // The session object

  class Jogo {
    /** The turn ring of the session's players. */
    var jogadores: LinkedList<Handle>

    constructor ()
      ensures fresh(jogadores) && jogadores.Valid() && jogadores.items == []
    {
      jogadores := new LinkedList<Handle>();
    }

    /**
     * `letras(letter, arr, word)`: write `letter` into `arr` at every index
     * where `word` holds it, leave every other index alone, and return `arr`
     * joined with single spaces.
     */
    method Letras(letter: char, masked: array<char>, word: seq<char>) returns (shown: string)
      requires |word| <= masked.Length
      modifies masked
      ensures forall i :: 0 <= i < masked.Length ==>
        masked[i] == if i < |word| && word[i] == letter then letter else old(masked[i])
      ensures masked[..] == Reveal(old(masked[..]), word, letter)
      ensures shown == JoinSpaces(masked[..])
    {
      for i := 0 to |word|
        invariant forall j :: 0 <= j < masked.Length ==>
          masked[j] == if j < i && word[j] == letter then letter else old(masked[j])
      {
        if word[i] == letter {
          masked[i] := letter;
        }
      }
      shown := JoinSpaces(masked[..]);
    }

    /**
     * `adicionar_jogadores_a_lista`: insert the i-th player at position i + 1;
     * the ring then starts with the players in list order and the cursor is
     * on the first of them.
     */
    method AdicionarJogadores(players: seq<Handle>)
      requires jogadores.Valid()
      modifies jogadores
      ensures jogadores.Valid()
      ensures jogadores.items == players + old(jogadores.items)
      ensures jogadores.pointer == if players == [] then old(jogadores.pointer) else 0
    {
      for i := 0 to |players|
        invariant jogadores.Valid()
        invariant jogadores.items == players[..i] + old(jogadores.items)
        invariant jogadores.pointer == if i == 0 then old(jogadores.pointer) else 0
      {
        ghost var before := jogadores.items;
        assert before[..i] == players[..i] && before[i..] == old(jogadores.items);
        var inserted := jogadores.Insert(players[i], i + 1);
        assert players[..i + 1] == players[..i] + [players[i]];
      }
      assert players[..|players|] == players;
    }

    /**
     * One pass of the `_iniciar_jogo` loop on the reply `m`, with `player` on
     * turn: the state moves as `Step` says, and `leave` is the loop's `break`.
     */
    method Turn(word: seq<char>, masked: array<char>, wrong: seq<char>, attempts: nat, rounds: nat, player: Handle, m: Move)
      returns (wrong': seq<char>, attempts': nat, rounds': nat, player': Handle, leave: bool)
      requires jogadores.Valid() && jogadores.size > 0 && player == jogadores.items[jogadores.pointer]
      requires IsAscii(word) && masked.Length == |word| && attempts < MaxAttempts
      requires m.LetterGuess? ==> IsAscii(m.entry)
      modifies masked, jogadores`pointer
      ensures jogadores.Valid() && player' == jogadores.items[jogadores.pointer]
      ensures var next := Step(word, jogadores.size, Session(old(masked[..]), wrong, attempts, rounds, old(jogadores.pointer), false), m);
        masked[..] == next.masked && wrong' == next.wrong && attempts' == next.attempts &&
        rounds' == next.rounds && jogadores.pointer == next.turn &&
        (leave ==> !Running(next)) && (!leave ==> !next.guessed)
    {
      wrong', attempts', rounds', player', leave := wrong, attempts, rounds, player, false;
      match m {
        case NoMove =>
        case WordGuess(g) =>
          if ChutarPalavra(word, g) {
            leave := true;
            return;
          }
          attempts', rounds' := attempts + 1, rounds + 1;
          // the gallows drawing broadcast now is entry `attempts'` of the table
          assert attempts' < GallowsStages;
          player' := jogadores.Advance();
        case LetterGuess(entry) =>
          var letter := LetterInput(entry);
          if |letter| != 1 {
          } else if letter[0] in wrong || letter[0] in masked[..] {
          } else if letter[0] in word {
            var shown := Letras(letter[0], masked, word);
            rounds' := rounds + 1;
            if Blank !in masked[..] {
              leave := true;
              return;
            }
            player' := jogadores.Advance();
          } else {
            attempts', rounds' := attempts + 1, rounds + 1;
            assert attempts' < GallowsStages;
            wrong' := wrong + [letter[0]];
            player' := jogadores.Advance();
          }
      }
    }

    /**
     * `_iniciar_jogo(players)`, with `secret` the word fetched for the chosen
     * theme and `replies` the players' answers to the "menu" prompts in the
     * order they are read.
     */
    method IniciarJogo(players: seq<Handle>, secret: string, replies: seq<string>) returns (e: Ending)
      requires jogadores.Valid() && jogadores.items == []
      requires IsAscii(secret) && AllAscii(replies)
      modifies jogadores
      ensures e == RunSession(players, secret, replies)
    {
      AdicionarJogadores(players);
      var first := jogadores.Element(0);
      if first.Failure? {
        return Aborted;
      }
      var word := SecretWord(secret);
      var masked := new char[|word|](_ => Blank);
      var wrong: seq<char> := [];
      var attempts: nat, rounds: nat := 0, 0;
      var player := first.value;
      var i := 0;
      assert masked[..] == Start(word).masked;
      while Blank in masked[..] && attempts < MaxAttempts
        invariant jogadores.Valid() && jogadores.items == players && players != []
        invariant masked.Length == |word| && 0 <= i <= |replies|
        invariant player == players[jogadores.pointer]
        invariant RunSession(players, secret, replies) ==
          Play(word, players, Session(masked[..], wrong, attempts, rounds, jogadores.pointer, false), replies[i..])
        decreases |replies| - i
      {
        if i == |replies| {
          return AwaitingInput;
        }
        var move := ParseMove(replies[i]);
        assert replies[i..][1..] == replies[i + 1..];
        i := i + 1;
        if move.None? {
          return Aborted;
        }
        var leave;
        wrong, attempts, rounds, player, leave := Turn(word, masked, wrong, attempts, rounds, player, move.value);
        if leave {
          break;
        }
      }
      e := Finished(
        if Blank !in masked[..] then Player(player)
        else if attempts >= MaxAttempts then Nobody
        else Player(player));
    }
  }
}

=== FILE: server.dfy ===
/**
 * The room registry and readiness tracker of the game server (`Server` in
 * server.py). Each method guarded by a semaphore in the source is one atomic
 * step here. The three hash tables become maps: room name to the handles of
 * its members, handle to nickname, and room name to the handles that are
 * ready, in the order they became ready.
 *
 * Every step is first given as a pure function on a `Registry` value; the
 * methods of `Server` perform that step on the object's fields, and the
 * lemmas state what the steps promise.
 */
module GameServer {
  import opened Wrappers
  import opened Text
  import Hangman

  type Handle = Hangman.Handle

  /** Most members a room takes. */
  const Capacity: nat := 3

  /** Status codes the server answers with. */
  const Ok: string := "200"
  const RoomNotFound: string := "401"
  const NameTaken: string := "402"
  const Unavailable: string := "404"

  datatype Registry = Registry(
    salas: map<string, seq<Handle>>,
    nicknameList: map<Handle, string>,
    jogadoresProntos: map<string, seq<Handle>>)

  /** A registry after a step, and the status code answered. */
  datatype Response = Response(reg: Registry, code: string)

  /** What `jogador_pronto` answers: '200', or the whole ready list once it is full. */
  datatype ReadyReply = StillWaiting | AllReady(players: seq<Handle>)

  /** Every room holds between one and `Capacity` members. */
  predicate WithinCapacity(salas: map<string, seq<Handle>>) {
    forall room :: room in salas ==> 1 <= |salas[room]| <= Capacity
  }

  // ---------------------------------------------------------------------------
  // The atomic steps

  /** `__criar_sala(h, name)`. */
  function CreateRoom(reg: Registry, h: Handle, name: string): (out: Response)
    ensures out.code == Ok || out.code == NameTaken
    ensures out.reg.nicknameList == reg.nicknameList && out.reg.jogadoresProntos == reg.jogadoresProntos
  {
    if name in reg.salas then Response(reg, NameTaken)
    else Response(reg.(salas := reg.salas[name := [h]]), Ok)
  }

  /** `__entrar_na_sala(room, h)`. */
  function JoinRoom(reg: Registry, room: string, h: Handle): (out: Response)
    ensures out.code == Ok || out.code == RoomNotFound || out.code == Unavailable
    ensures out.reg.salas.Keys == reg.salas.Keys
    ensures out.reg.nicknameList == reg.nicknameList && out.reg.jogadoresProntos == reg.jogadoresProntos
  {
    if room !in reg.salas then Response(reg, RoomNotFound)
    else if |reg.salas[room]| < Capacity then Response(reg.(salas := reg.salas[room := reg.salas[room] + [h]]), Ok)
    else Response(reg, Unavailable)
  }

  /** `nickname(h, nick)`. */
  function SetNickname(reg: Registry, h: Handle, nick: string): (out: Registry)
    ensures h in out.nicknameList && out.nicknameList[h] == nick
    ensures forall other :: other in reg.nicknameList && other != h ==> other in out.nicknameList && out.nicknameList[other] == reg.nicknameList[other]
    ensures out.salas == reg.salas && out.jogadoresProntos == reg.jogadoresProntos
  {
    reg.(nicknameList := reg.nicknameList[h := nick])
  }

  /** `jogador_pronto(h, room)` on the ready table. */
  function MarkReady(prontos: map<string, seq<Handle>>, room: string, h: Handle): (out: (map<string, seq<Handle>>, ReadyReply))
    ensures room in out.0 && |out.0[room]| > 0 && out.0[room][|out.0[room]| - 1] == h
    ensures out.1.AllReady? ==> |out.1.players| == Capacity
  {
    if room in prontos then
      var lista := prontos[room] + [h];
      (prontos[room := lista], if |lista| == Capacity then AllReady(lista) else StillWaiting)
    else
      (prontos[room := [h]], StillWaiting)
  }

  /** The registry cleanup at the end of `jogo`: the room leaves both tables. */
  function CloseRoom(reg: Registry, chave: string): (out: Registry)
    ensures chave !in out.salas && chave !in out.jogadoresProntos
    ensures out.nicknameList == reg.nicknameList
  {
    reg.(salas := reg.salas - {chave}, jogadoresProntos := reg.jogadoresProntos - {chave})
  }

  // ---------------------------------------------------------------------------
  // What the steps promise

  /** Creating a room: '402' and no change iff the name is taken, else a room with just the creator. */
  lemma CreateRoomRule(reg: Registry, h: Handle, name: string)
    ensures var out := CreateRoom(reg, h, name);
      (out.code == NameTaken <==> name in reg.salas) &&
      (out.code == NameTaken ==> out.reg == reg) &&
      (out.code != NameTaken ==>
        out.code == Ok && out.reg.salas[name] == [h] &&
        out.reg.salas.Keys == reg.salas.Keys + {name} &&
        (forall r :: r in reg.salas ==> out.reg.salas[r] == reg.salas[r])) &&
      out.reg.nicknameList == reg.nicknameList && out.reg.jogadoresProntos == reg.jogadoresProntos &&
      (WithinCapacity(reg.salas) ==> WithinCapacity(out.reg.salas))
  {
  }

  /**
   * Joining a room: '401' and no change if it does not exist, '404' and no
   * change if it is full, otherwise the handle is appended. A join never takes
   * a room above `Capacity`.
   */
  lemma JoinRoomRule(reg: Registry, room: string, h: Handle)
    ensures var out := JoinRoom(reg, room, h);
      (out.code == RoomNotFound <==> room !in reg.salas) &&
      (out.code == Unavailable <==> room in reg.salas && |reg.salas[room]| >= Capacity) &&
      (out.code != Ok ==> out.reg == reg) &&
      (out.code == Ok ==>
        out.reg.salas == reg.salas[room := reg.salas[room] + [h]] &&
        |out.reg.salas[room]| <= Capacity) &&
      out.reg.nicknameList == reg.nicknameList && out.reg.jogadoresProntos == reg.jogadoresProntos &&
      (WithinCapacity(reg.salas) ==> WithinCapacity(out.reg.salas))
  {
  }

  /**
   * Marking ready: the handle is appended to the room's ready list (which the
   * first mark creates), no other room changes, and the reply is the whole
   * list exactly when it now holds `Capacity` handles.
   */
  lemma MarkReadyRule(prontos: map<string, seq<Handle>>, room: string, h: Handle)
    ensures var (after, reply) := MarkReady(prontos, room, h);
      room in after &&
      after[room] == (if room in prontos then prontos[room] else []) + [h] &&
      after.Keys == prontos.Keys + {room} &&
      (forall r :: r in prontos && r != room ==> after[r] == prontos[r]) &&
      (reply.AllReady? <==> |after[room]| == Capacity) &&
      (reply.AllReady? ==> reply.players == after[room])
  {
  }

  /** The replies to a run of ready marks for one room, in order. */
  function ReadyReplies(prontos: map<string, seq<Handle>>, room: string, hs: seq<Handle>): seq<ReadyReply>
    decreases |hs|
  {
    if hs == [] then []
    else
      var (after, reply) := MarkReady(prontos, room, hs[0]);
      [reply] + ReadyReplies(after, room, hs[1..])
  }

  /**
   * Starting from a room nobody has marked ready in, the third mark, and no
   * other, answers with the full list: the three handles in the order they
   * were marked.
   */
  lemma ThirdMarkStartsGame(prontos: map<string, seq<Handle>>, room: string, hs: seq<Handle>)
    requires room !in prontos
    ensures |ReadyReplies(prontos, room, hs)| == |hs|
    ensures forall k :: 0 <= k < |hs| ==>
      (ReadyReplies(prontos, room, hs)[k].AllReady? <==> k == Capacity - 1)
    ensures |hs| >= Capacity ==> ReadyReplies(prontos, room, hs)[Capacity - 1] == AllReady(hs[..Capacity])
  {
    ReadyRepliesFrom(prontos, room, hs, []);
  }

  lemma {:induction false} ReadyRepliesFrom(prontos: map<string, seq<Handle>>, room: string, hs: seq<Handle>, done: seq<Handle>)
    requires if done == [] then room !in prontos else room in prontos && prontos[room] == done
    ensures |ReadyReplies(prontos, room, hs)| == |hs|
    ensures forall k :: 0 <= k < |hs| ==>
      ReadyReplies(prontos, room, hs)[k] ==
        if |done| + k + 1 == Capacity then AllReady(done + hs[..k + 1]) else StillWaiting
    decreases |hs|
  {
    if hs != [] {
      var (after, reply) := MarkReady(prontos, room, hs[0]);
      assert after[room] == done + [hs[0]];
      ReadyRepliesFrom(after, room, hs[1..], done + [hs[0]]);
      var rs := ReadyReplies(prontos, room, hs);
      forall k | 0 <= k < |hs|
        ensures rs[k] == if |done| + k + 1 == Capacity then AllReady(done + hs[..k + 1]) else StillWaiting
      {
        if k > 0 {
          assert rs[k] == ReadyReplies(after, room, hs[1..])[k - 1];
          assert done + [hs[0]] + hs[1..][..k] == done + hs[..k + 1];
        } else {
          assert done + [hs[0]] == done + hs[..1];
        }
      }
    }
  }

  /** Closing a room removes it from both tables and leaves everything else as it was. */
  lemma CloseRoomRule(reg: Registry, chave: string)
    ensures var out := CloseRoom(reg, chave);
      chave !in out.salas && chave !in out.jogadoresProntos &&
      out.salas.Keys == reg.salas.Keys - {chave} &&
      out.jogadoresProntos.Keys == reg.jogadoresProntos.Keys - {chave} &&
      (forall r :: r in out.salas ==> out.salas[r] == reg.salas[r]) &&
      (forall r :: r in out.jogadoresProntos ==> out.jogadoresProntos[r] == reg.jogadoresProntos[r]) &&
      out.nicknameList == reg.nicknameList &&
      (WithinCapacity(reg.salas) ==> WithinCapacity(out.salas))
  {
  }

  // ---------------------------------------------------------------------------
  // The room listing

  /** `names` lists every key of the table once. */
  ghost predicate Enumerates(names: seq<string>, keys: set<string>) {
    (forall i, j :: 0 <= i < j < |names| ==> names[i] != names[j]) &&
    (forall n :: n in names <==> n in keys)
  }

  /** One line `-  <name>` per room, in the order given. */
  function RoomLines(names: seq<string>): string
    decreases |names|
  {
    if names == [] then "" else RoomLines(names[..|names| - 1]) + "-  " + names[|names| - 1] + "\n"
  }

  /** A listing of the rooms: '404' when there are none, otherwise their lines in some order. */
  ghost predicate IsListing(salas: map<string, seq<Handle>>, text: string) {
    if salas == map[] then text == Unavailable
    else exists names :: Enumerates(names, salas.Keys) && text == RoomLines(names)
  }

  /** A non-empty listing starts with a room line. */
  lemma {:induction false} RoomLinesStart(names: seq<string>)
    requires names != []
    ensures |RoomLines(names)| > 0 && RoomLines(names)[0] == '-'
    decreases |names|
  {
    var init := names[..|names| - 1];
    if init != [] {
      RoomLinesStart(init);
    }
  }

  /** The answer '404' means no room exists: a listing of rooms is never '404'. */
  lemma ListingIsUnavailableIffNoRooms(salas: map<string, seq<Handle>>, text: string)
    requires IsListing(salas, text)
    ensures text == Unavailable <==> salas == map[]
  {
    if salas != map[] {
      var names :| Enumerates(names, salas.Keys) && text == RoomLines(names);
      var k :| k in salas.Keys;
      assert k in names;
      RoomLinesStart(names);
      assert text[0] == '-';
    }
  }

  // ---------------------------------------------------------------------------
  // Command classification

  /** What a command line asks for. */
  datatype Command = Nick(nick: string) | Join(room: string) | Ready | Create(room: string) | List | Ignored

  /**
   * The dispatch of `comandos`: with a comma, on the first comma-separated
   * field, the argument being the second; without one, only the bare word
   * `salas_disponiveis` is a command. Anything else is skipped.
   */
  function ClassifyCommand(cmd: string): (c: Command)
    ensures c.List? ==> ',' !in cmd
    ensures (c.Nick? || c.Join? || c.Ready? || c.Create?) ==> ',' in cmd
  {
    if ',' in cmd then
      var fields := Split(cmd, ',');
      SplitHasTwoFields(cmd, ',');
      if fields[0] == "nickname" then Nick(fields[1])
      else if fields[0] == "entrar_na_sala" then Join(fields[1])
      else if fields[0] == "jogador_pronto" then Ready
      else if fields[0] == "criar_sala" then Create(fields[1])
      else Ignored
    else if cmd == "salas_disponiveis" then List
    else Ignored
  }

  /** A command line `<verb>,<argument>` with a comma-free argument, as clients build them. */
  function Request(verb: string, arg: string): string {
    verb + [','] + arg
  }

  lemma {:induction false} RequestFields(verb: string, arg: string)
    requires ',' !in verb && ',' !in arg
    ensures ',' in Request(verb, arg)
    ensures Split(Request(verb, arg), ',') == [verb, arg]
  {
    assert Request(verb, arg)[|verb|] == ',';
    SplitJoinWith([verb, arg], ',');
    assert JoinWith([verb, arg], ',') == verb + [','] + JoinWith([arg], ',');
  }

  /** A request is classified by its verb, with its argument. */
  lemma ClassifyRequest(verb: string, arg: string)
    requires ',' !in verb && ',' !in arg
    ensures var c := ClassifyCommand(Request(verb, arg));
      (verb == "nickname" ==> c == Nick(arg)) &&
      (verb == "entrar_na_sala" ==> c == Join(arg)) &&
      (verb == "jogador_pronto" ==> c == Ready) &&
      (verb == "criar_sala" ==> c == Create(arg))
  {
    RequestFields(verb, arg);
  }

  /** Every request the client sends is classified as the command it stands for. */
  lemma ClassifyRequests(arg: string)
    requires ',' !in arg
    ensures ClassifyCommand(Request("nickname", arg)) == Nick(arg)
    ensures ClassifyCommand(Request("entrar_na_sala", arg)) == Join(arg)
    ensures ClassifyCommand(Request("jogador_pronto", arg)) == Ready
    ensures ClassifyCommand(Request("criar_sala", arg)) == Create(arg)
  {
    ClassifyRequest("nickname", arg);
    ClassifyRequest("entrar_na_sala", arg);
    ClassifyRequest("jogador_pronto", arg);
    ClassifyRequest("criar_sala", arg);
  }

  /** The bare request for the room listing. */
  lemma ClassifyListRequest()
    ensures ClassifyCommand("salas_disponiveis") == List
  {
    var cmd := "salas_disponiveis";
    assert ',' !in cmd by {
      forall i | 0 <= i < |cmd|
        ensures cmd[i] != ','
      {
      }
    }
  }

  /** The registry after the commands other than `jogador_pronto`. */
  function Apply(reg: Registry, h: Handle, c: Command): (out: Registry)
    ensures out.jogadoresProntos == reg.jogadoresProntos
  {
    match c
    case Nick(n) => SetNickname(reg, h, n)
    case Join(room) => JoinRoom(reg, room, h).reg
    case Create(room) => CreateRoom(reg, h, room).reg
    case _ => reg
  }

  /** The registry after a run of commands, the last applied last. */
  function Serve(reg: Registry, h: Handle, cmds: seq<string>): (out: Registry)
    ensures out.jogadoresProntos == reg.jogadoresProntos
    decreases |cmds|
  {
    if cmds == [] then reg
    else Apply(Serve(reg, h, cmds[..|cmds| - 1]), h, ClassifyCommand(cmds[|cmds| - 1]))
  }

  /**
   * What the loop sends back for a command it serves, given the registry the
   * command found; `jogador_pronto` is not served in the loop but ends it.
   */
  ghost predicate Answers(reg: Registry, h: Handle, c: Command, reply: Option<string>) {
    match c
    case Join(room) => reply == Some(JoinRoom(reg, room, h).code)
    case Create(room) => reply == Some(CreateRoom(reg, h, room).code)
    case List => reply.Some? && IsListing(reg.salas, reply.value)
    case Ready => false
    case _ => reply == None
  }

  /** `replies[k]` answers `cmds[k]` in the registry the earlier commands left, for every `k`. */
  ghost predicate AnswersAll(reg: Registry, h: Handle, cmds: seq<string>, replies: seq<Option<string>>)
    decreases |cmds|
  {
    |replies| == |cmds| &&
    (cmds != [] ==>
      var n := |cmds| - 1;
      AnswersAll(reg, h, cmds[..n], replies[..n]) &&
      Answers(Serve(reg, h, cmds[..n]), h, ClassifyCommand(cmds[n]), replies[n]))
  }

  /** Serving one more command: the registry it finds, and the answers so far extended by its answer. */
  lemma ServeOneMore(reg: Registry, h: Handle, cmds: seq<string>, i: nat, replies: seq<Option<string>>, reply: Option<string>)
    requires i < |cmds|
    requires AnswersAll(reg, h, cmds[..i], replies)
    requires Answers(Serve(reg, h, cmds[..i]), h, ClassifyCommand(cmds[i]), reply)
    ensures Serve(reg, h, cmds[..i + 1]) == Apply(Serve(reg, h, cmds[..i]), h, ClassifyCommand(cmds[i]))
    ensures AnswersAll(reg, h, cmds[..i + 1], replies + [reply])
  {
    assert cmds[..i + 1][..i] == cmds[..i];
    assert (replies + [reply])[..i] == replies;
  }

  /** Read index by index, a run of answers answers each command in turn. */
  lemma {:induction false} AnswersEach(reg: Registry, h: Handle, cmds: seq<string>, replies: seq<Option<string>>)
    requires AnswersAll(reg, h, cmds, replies)
    ensures forall k :: 0 <= k < |cmds| ==>
      Answers(Serve(reg, h, cmds[..k]), h, ClassifyCommand(cmds[k]), replies[k]) &&
      ClassifyCommand(cmds[k]) != Ready
    decreases |cmds|
  {
    if cmds != [] {
      var n := |cmds| - 1;
      var earlier, earlierReplies := cmds[..n], replies[..n];
      AnswersEach(reg, h, earlier, earlierReplies);
      forall k | 0 <= k < |cmds|
        ensures Answers(Serve(reg, h, cmds[..k]), h, ClassifyCommand(cmds[k]), replies[k])
        ensures ClassifyCommand(cmds[k]) != Ready
      {
        if k < n {
          assert earlier[..k] == cmds[..k];
          assert earlier[k] == cmds[k] && earlierReplies[k] == replies[k];
        }
      }
    }
  }

  /** No command a client sends can take a room above its capacity. */
  lemma {:induction false} ServeWithinCapacity(reg: Registry, h: Handle, cmds: seq<string>)
    requires WithinCapacity(reg.salas)
    ensures WithinCapacity(Serve(reg, h, cmds).salas)
    decreases |cmds|
  {
    if cmds != [] {
      var before := Serve(reg, h, cmds[..|cmds| - 1]);
      ServeWithinCapacity(reg, h, cmds[..|cmds| - 1]);
      match ClassifyCommand(cmds[|cmds| - 1])
      case Join(room) => JoinRoomRule(before, room, h);
      case Create(room) => CreateRoomRule(before, h, room);
      case _ =>
    }
  }

  // ---------------------------------------------------------------------------
  // The server object

  class Server {
    var salas: map<string, seq<Handle>>
    var nicknameList: map<Handle, string>
    var jogadoresProntos: map<string, seq<Handle>>

    ghost predicate Valid()
      reads this
    {
      WithinCapacity(salas)
    }

    function State(): Registry
      reads this
    {
      Registry(salas, nicknameList, jogadoresProntos)
    }

    constructor ()
      ensures Valid()
      ensures salas == map[] && nicknameList == map[] && jogadoresProntos == map[]
    {
      salas, nicknameList, jogadoresProntos := map[], map[], map[];
    }

    method CriarSala(h: Handle, nomeSala: string) returns (code: string)
      requires Valid()
      modifies this
      ensures Valid()
      ensures State() == CreateRoom(old(State()), h, nomeSala).reg
      ensures code == CreateRoom(old(State()), h, nomeSala).code
    {
      if nomeSala in salas {
        return NameTaken;
      }
      salas := salas[nomeSala := [h]];
      code := Ok;
    }

    method EntrarNaSala(sala: string, h: Handle) returns (code: string)
      requires Valid()
      modifies this
      ensures Valid()
      ensures State() == JoinRoom(old(State()), sala, h).reg
      ensures code == JoinRoom(old(State()), sala, h).code
    {
      if sala in salas {
        var lista := salas[sala];
        if |lista| < Capacity {
          salas := salas[sala := lista + [h]];
          return Ok;
        } else {
          return Unavailable;
        }
      } else {
        return RoomNotFound;
      }
    }

    method Nickname(h: Handle, nick: string)
      modifies this
      ensures State() == SetNickname(old(State()), h, nick)
    {
      nicknameList := nicknameList[h := nick];
    }

    /** `iniciar_jogo_todos_prontos(sala)`: the room's ready list is full. */
    method IniciarJogoTodosProntos(sala: string) returns (full: bool)
      requires sala in jogadoresProntos
      ensures full <==> |jogadoresProntos[sala]| == Capacity
    {
      full := |jogadoresProntos[sala]| == Capacity;
    }

    method JogadorPronto(h: Handle, sala: string) returns (reply: ReadyReply)
      modifies this
      ensures salas == old(salas) && nicknameList == old(nicknameList)
      ensures (jogadoresProntos, reply) == MarkReady(old(jogadoresProntos), sala, h)
    {
      if sala in jogadoresProntos {
        var lista := jogadoresProntos[sala] + [h];
        jogadoresProntos := jogadoresProntos[sala := lista];
        var full := IniciarJogoTodosProntos(sala);
        reply := if full then AllReady(lista) else StillWaiting;
      } else {
        jogadoresProntos := jogadoresProntos[sala := [h]];
        reply := StillWaiting;
      }
    }

    /**
     * `mostrar_salas_disponiveis()`: '404' when there is no room, otherwise
     * one line per room, in the order `names` the table is walked in.
     */
    method MostrarSalasDisponiveis() returns (listing: string, names: seq<string>)
      ensures listing == Unavailable <==> salas == map[]
      ensures salas != map[] ==> Enumerates(names, salas.Keys) && listing == RoomLines(names)
      ensures IsListing(salas, listing)
    {
      names := [];
      if salas == map[] {
        return Unavailable, names;
      }
      var rest := salas.Keys;
      listing := "";
      while rest != {}
        invariant rest <= salas.Keys
        invariant forall i, j :: 0 <= i < j < |names| ==> names[i] != names[j]
        invariant forall n :: n in names ==> n in salas && n !in rest
        invariant forall n :: n in salas ==> n in names || n in rest
        invariant listing == RoomLines(names)
        decreases |rest|
      {
        var sala :| sala in rest;
        assert (names + [sala])[..|names|] == names;
        names := names + [sala];
        listing := listing + "-  " + sala + "\n";
        rest := rest - {sala};
      }
      assert Enumerates(names, salas.Keys);
      ListingIsUnavailableIffNoRooms(salas, listing);
    }

    /**
     * The end of `jogo(players, chave)`: the session is run; once it has
     * ended, with a winner or not, the room leaves both tables and the
     * winner's nickname, if any, is what is announced. A session that raised
     * or is still waiting for a reply leaves the registry as it was.
     */
    method Jogo(players: seq<Handle>, chave: string, secret: string, replies: seq<string>)
      returns (e: Hangman.Ending, nick: Option<string>)
      requires Valid() && IsAscii(secret) && Hangman.AllAscii(replies)
      modifies this
      ensures Valid()
      ensures e == Hangman.RunSession(players, secret, replies)
      ensures State() == if e.Finished? then CloseRoom(old(State()), chave) else old(State())
      ensures nick == if e.Finished? && e.winner.Player? && e.winner.handle in nicknameList
                      then Some(nicknameList[e.winner.handle]) else None
    {
      var jogo := new Hangman.Jogo();
      e := jogo.IniciarJogo(players, secret, replies);
      nick := None;
      if e.Finished? {
        if e.winner.Player? && e.winner.handle in nicknameList {
          nick := Some(nicknameList[e.winner.handle]);
        }
        salas := salas - {chave};
        jogadoresProntos := jogadoresProntos - {chave};
      }
    }

    /** One pass of the `comandos` loop for any command but `jogador_pronto`. */
    method Dispatch(h: Handle, c: Command) returns (reply: Option<string>)
      requires Valid() && !c.Ready?
      modifies this
      ensures Valid()
      ensures State() == Apply(old(State()), h, c)
      ensures Answers(old(State()), h, c, reply)
    {
      reply := None;
      match c {
        case Nick(n) =>
          Nickname(h, n);
        case Join(room) =>
          var code := EntrarNaSala(room, h);
          reply := Some(code);
        case Create(room) =>
          var code := CriarSala(h, room);
          reply := Some(code);
        case List =>
          var listing, _ := MostrarSalasDisponiveis();
          reply := Some(listing);
        case Ignored =>
      }
    }

    /** Serve `cmds[i]`, any command but `jogador_pronto`, after the commands before it. */
    method ServeNext(h: Handle, cmds: seq<string>, i: nat, ghost start: Registry, ghost replies: seq<Option<string>>)
      returns (reply: Option<string>)
      requires Valid() && i < |cmds| && !ClassifyCommand(cmds[i]).Ready?
      requires State() == Serve(start, h, cmds[..i]) && AnswersAll(start, h, cmds[..i], replies)
      modifies this
      ensures Valid()
      ensures State() == Serve(start, h, cmds[..i + 1])
      ensures AnswersAll(start, h, cmds[..i + 1], replies + [reply])
    {
      reply := Dispatch(h, ClassifyCommand(cmds[i]));
      ServeOneMore(start, h, cmds, i, replies, reply);
    }

    /**
     * The `comandos` loop for the client `h`, reading the command lines
     * `cmds` in order. It serves every command up to the first
     * `jogador_pronto`, where it stops (`stop` is that command's index, or
     * `|cmds|` when the lines run out first); `replies[k]` is what was sent
     * back for `cmds[k]`, if anything (`AnswersEach` reads this index by
     * index, and shows no command before `stop` is a `jogador_pronto`).
     */
    method Comandos(h: Handle, cmds: seq<string>) returns (replies: seq<Option<string>>, stop: nat)
      requires Valid()
      modifies this
      ensures Valid()
      ensures stop <= |cmds| && |replies| == stop
      ensures stop < |cmds| ==> ClassifyCommand(cmds[stop]) == Ready
      ensures State() == Serve(old(State()), h, cmds[..stop])
      ensures AnswersAll(old(State()), h, cmds[..stop], replies)
    {
      replies := [];
      stop := 0;
      while stop < |cmds|
        invariant Valid()
        invariant stop <= |cmds| && |replies| == stop
        invariant State() == Serve(old(State()), h, cmds[..stop])
        invariant AnswersAll(old(State()), h, cmds[..stop], replies)
        decreases |cmds| - stop
      {
        var c := ClassifyCommand(cmds[stop]);
        if c.Ready? {
          return;
        }
        var reply := ServeNext(h, cmds, stop, old(State()), replies);
        replies := replies + [reply];
        stop := stop + 1;
      }
    }
  }
}

=== FILE: text.dfy ===
/**
 * The string operations the game and the server rely on, in Python's meaning:
 * substring membership (`t in s`), `str.split(sep)`, and ASCII case mapping.
 */
module Text {

  predicate IsAscii(s: string) {
    forall i :: 0 <= i < |s| ==> s[i] < 128 as char
  }

  predicate IsLetter(c: char) {
    'a' <= c <= 'z' || 'A' <= c <= 'Z'
  }

  predicate IsDigit(c: char) {
    '0' <= c <= '9'
  }

  function UpperChar(c: char): char {
    if 'a' <= c <= 'z' then (c as int - 32) as char else c
  }

  function LowerChar(c: char): char {
    if 'A' <= c <= 'Z' then (c as int + 32) as char else c
  }

  /**
   * `s.upper()` on ASCII text: no lower-case letter is left, and the result
   * differs from `s` only in case.
   */
  function Upper(s: string): (u: string)
    requires IsAscii(s)
    ensures |u| == |s| && IsAscii(u)
    ensures forall i :: 0 <= i < |u| ==> !('a' <= u[i] <= 'z')
    ensures Lower(u) == Lower(s)
  {
    seq(|s|, i requires 0 <= i < |s| => UpperChar(s[i]))
  }

  /** `s.lower()` on ASCII text: no capital letter is left, and only the case changes. */
  function Lower(s: string): (r: string)
    requires IsAscii(s)
    ensures |r| == |s| && IsAscii(r)
    ensures forall i :: 0 <= i < |r| ==> !('A' <= r[i] <= 'Z')
    ensures forall i :: 0 <= i < |r| ==> UpperChar(r[i]) == UpperChar(s[i])
  {
    seq(|s|, i requires 0 <= i < |s| => LowerChar(s[i]))
  }

  // ---------------------------------------------------------------------------
  // Substring membership

  /** Python's `t in s` for strings, by scanning the start positions of `s`. */
  predicate Contains(s: string, t: string)
    decreases |s|
  {
    t <= s || (|s| > 0 && Contains(s[1..], t))
  }

  /** `t` occurs in `s` starting at index `i`. */
  predicate OccursAt(s: string, t: string, i: int) {
    0 <= i <= |s| - |t| && s[i..i + |t|] == t
  }

  /** `Contains` agrees with the positional definition of a substring. */
  lemma {:induction false} ContainsIffOccurs(s: string, t: string)
    ensures Contains(s, t) <==> exists i :: OccursAt(s, t, i)
    decreases |s|
  {
    if t <= s {
      assert s[0..|t|] == t;
      assert OccursAt(s, t, 0);
    } else if |s| == 0 {
      // only the empty string occurs in the empty string, and it is a prefix
      assert forall i :: !OccursAt(s, t, i);
    } else {
      ContainsIffOccurs(s[1..], t);
      if exists i :: OccursAt(s, t, i) {
        var i :| OccursAt(s, t, i);
        assert i != 0;
        assert s[1..][i - 1..i - 1 + |t|] == s[i..i + |t|];
        assert OccursAt(s[1..], t, i - 1);
      }
      if exists i :: OccursAt(s[1..], t, i) {
        var i :| OccursAt(s[1..], t, i);
        assert s[i + 1..i + 1 + |t|] == s[1..][i..i + |t|];
        assert OccursAt(s, t, i + 1);
      }
    }
  }

  // ---------------------------------------------------------------------------
  // str.split(sep)

  /** The fields of a split string glued back together with the separator. */
  function JoinWith(parts: seq<string>, sep: char): string
    requires |parts| > 0
  {
    if |parts| == 1 then parts[0] else parts[0] + [sep] + JoinWith(parts[1..], sep)
  }

  /**
   * Python's `s.split(sep)` for a one-character separator: always at least one
   * field, no field holds the separator, and joining the fields back gives `s`.
   */
  function Split(s: string, sep: char): (parts: seq<string>)
    ensures |parts| > 0
    ensures forall i :: 0 <= i < |parts| ==> sep !in parts[i]
    ensures JoinWith(parts, sep) == s
    ensures IsAscii(s) ==> forall i :: 0 <= i < |parts| ==> IsAscii(parts[i])
    decreases |s|
  {
    if s == [] then [[]]
    else
      var rest := Split(s[1..], sep);
      if s[0] == sep then
        assert ([[]] + rest)[1..] == rest;
        [[]] + rest
      else
        var parts := [[s[0]] + rest[0]] + rest[1..];
        assert parts[1..] == rest[1..];
        assert |rest| > 1 ==> JoinWith(rest, sep) == rest[0] + [sep] + JoinWith(rest[1..], sep);
        assert s == [s[0]] + s[1..];
        parts
  }

  /** A string with the separator somewhere splits into at least two fields. */
  lemma SplitHasTwoFields(s: string, sep: char)
    requires sep in s
    ensures |Split(s, sep)| >= 2
  {
  }

  lemma {:induction false} SplitNoSeparator(a: string, sep: char)
    requires sep !in a
    ensures Split(a, sep) == [a]
    decreases |a|
  {
    if a != [] {
      SplitNoSeparator(a[1..], sep);
      assert [a[0]] + a[1..] == a;
    }
  }

  lemma {:induction false} SplitAfterField(a: string, t: string, sep: char)
    requires sep !in a
    ensures Split(a + [sep] + t, sep) == [a] + Split(t, sep)
    decreases |a|
  {
    var s := a + [sep] + t;
    if a == [] {
      assert s[1..] == t;
    } else {
      assert s[1..] == a[1..] + [sep] + t;
      SplitAfterField(a[1..], t, sep);
      assert [a[0]] + a[1..] == a;
    }
  }

  /** Splitting undoes joining fields that do not contain the separator. */
  lemma {:induction false} SplitJoinWith(parts: seq<string>, sep: char)
    requires |parts| > 0
    requires forall i :: 0 <= i < |parts| ==> sep !in parts[i]
    ensures Split(JoinWith(parts, sep), sep) == parts
    decreases |parts|
  {
    if |parts| == 1 {
      SplitNoSeparator(parts[0], sep);
    } else {
      SplitJoinWith(parts[1..], sep);
      SplitAfterField(parts[0], JoinWith(parts[1..], sep), sep);
      assert [parts[0]] + parts[1..] == parts;
    }
  }
}

=== FILE: wrappers.dfy ===
/** Failure-carrying result types shared by the other modules. */
module Wrappers {

  datatype Option<+T> = None | Some(value: T)

  /** Either a value, or the error an operation raised instead of producing one. */
  datatype Result<+R, +E> = Success(value: R) | Failure(error: E)
}
